=== FILE: README.md ===
# Tetris game state, in Dafny

A model of the game logic of a desktop Tetris clone. It covers three parts:

- **The game-state machine** (`GameState`). It holds a 22 x 10 grid, the one-block lookahead queue, the current and held blocks, the score, the game-over and can-hold flags, and the settings. Every public operation is modelled as a pure function from the state before to the state after:
  - moving left, right or down;
  - rotating clockwise or counter-clockwise;
  - the hard drop;
  - hold;
  - reset;
  - the constructor;
  - the settings setter.

  The private helpers are modelled too: the fit check, the spawn nudge, lock-clear-score and the drop-distance queries.
- **The settings record** (`GameSettings`): defaults, multiplier validation, the setters, reset to defaults, and the re-validation applied to a loaded record.
- **The `Position` value**: constructor, property assignment, field-wise equality and its `"(Row, Column)"` rendering.

The grid, block and queue classes are not part of this model. They appear as small abstract components (`GameGrid`, `Blocks`, `Queue`) whose behaviour is what the game state relies on and what the repository's unit tests assert of them:

- `IsEmpty` is false outside the grid.
- Every block has 4 tiles.
- `Move` translates every tile.
- `Reset` restores the spawn tiles.
- Consecutive blocks from the queue have different ids.

A block carries its own rotation tables as data, so every statement about blocks holds for any variant whatever its offset tables are.

Randomness becomes a parameter. An operation that may take a block from the queue receives `drawn`, which is what the queue's generator hands back after its redraw loop. Its id therefore differs from the lookahead's (`Queue.Follows`). The redraw loop itself is `Queue.Redraw`, over an explicit sequence of draws.

Files:

| file | module | contents |
|---|---|---|
| opt.dfy | `Opt` | `Option`, standing for a nullable reference |
| position.dfy | `Positions` | `Position`, `Equals`, setters, `ToString` and its parser |
| settings.dfy | `GameSettings` | `Settings`, validation, setters, `LoadFromFile` |
| grid.dfy | `GameGrid` | the grid, `ClearFullRows`, `Paint` |
| block.dfy | `Blocks` | the abstract block: move, rotate, reset |
| queue.dfy | `Queue` | the lookahead queue and its redraw rule |
| game.dfy | `Game` | the game-state machine |

`Game.Valid` is the state invariant that every operation preserves. It requires:

- the grid is 22 x 10 and every cell holds 0 or a block id;
- the current block lies inside the grid;
- every block the game holds or will spawn has spawn tiles inside the grid;
- the settings are valid;
- the score is non-negative.

One point where this program departs from classic Tetris, and the model follows the program:

- Classic Tetris treats game over as terminal until a new game starts. Here no move, rotation, drop or hold checks `GameOver`. So the model's operations apply to a game-over state too, and `PlaceBlock` only ever sets the flag, never clears it.

The block classes are not part of this model, so neither is their rotation arithmetic. `Blocks.Block.RotateCW` and `Blocks.Block.RotateCCW` wrap modulo the number of tables a block carries. This covers four tables per piece, and also a single table for a symmetric piece. The cyclic law `Blocks.RotateCycle` holds for any table count that divides four.

## Model

| member | source | states |
|---|---|---|
| Positions.Make | TetrisModel/Position.cs:8-12 | the constructor stores exactly the row and column it is given |
| Positions.WithRow | TetrisModel/Position.cs:5 | assigning `Row` sets the row and leaves the column unchanged |
| Positions.WithColumn | TetrisModel/Position.cs:6 | assigning `Column` sets the column and leaves the row unchanged |
| Positions.SettersCommute | TetrisModel/Position.cs:5-6 | the two setters commute; a second assignment to a property overrides the first; assigning a property its own value changes nothing |
| Positions.EqualsIsValueEquality | TetrisModel/Position.cs:14-21 | `Equals` holds iff the other object is a position with the same row and column; it is false for any object that is not a position |
| Positions.EqualsReflexive | TetrisModel/Position.cs:18 | every position equals itself |
| Positions.EqualsSymmetric | TetrisModel/Position.cs:18 | `p.Equals(q)` iff `q.Equals(p)` |
| Positions.EqualsTransitive | TetrisModel/Position.cs:18 | equality of positions is transitive |
| Positions.ToString | TetrisModel/Position.cs:28-31 | the rendering is parenthesised and at least six characters long |
| Positions.IntToStringNoComma | TetrisModel/Position.cs:30 | a rendered integer is non-empty and has no comma, so the comma in `"(Row, Column)"` separates the two numbers |
| Positions.ParseIntToString | TetrisModel/Position.cs:30 | the decimal rendering of any integer, negative ones included, reads back as that integer |
| Positions.ParseToString | TetrisModel/Position.cs:28-31 | `"(Row, Column)"` reads back as the same position: the rendering loses nothing |
| Positions.ToStringInjective | TetrisModel/Position.cs:28-31 | two positions render the same iff they are equal |
| GameSettings.ValidatePointsMultiplier | TetrisModel/GameSettings.cs:39-44 | a value in [1, 10] is kept; any other value becomes 1; the result is always in [1, 10] |
| GameSettings.ValidateIdempotent | TetrisModel/GameSettings.cs:39-44 | validating twice is validating once |
| GameSettings.SetPointsMultiplier | TetrisModel/GameSettings.cs:20-25 | after the setter the multiplier is in [1, 10]: the given value when it is in range, 1 otherwise; the four flags are unchanged |
| GameSettings.SetHoldingBlockEnabled | TetrisModel/GameSettings.cs:27 | sets its flag; the multiplier and the other three flags are unchanged; validity is kept |
| GameSettings.SetDropBlockEnabled | TetrisModel/GameSettings.cs:28 | sets its flag; the multiplier and the other three flags are unchanged; validity is kept |
| GameSettings.SetGhostBlockVisible | TetrisModel/GameSettings.cs:29 | sets its flag; the multiplier and the other three flags are unchanged; validity is kept |
| GameSettings.SetInvertControls | TetrisModel/GameSettings.cs:30 | sets its flag; the multiplier and the other three flags are unchanged; validity is kept |
| GameSettings.ResetToDefaults | TetrisModel/GameSettings.cs:47-54 | multiplier 1, hold on, drop on, ghost on, invert off, whatever the settings held before |
| GameSettings.New | TetrisModel/GameSettings.cs:33-36 | a new settings object has the default values and is valid |
| GameSettings.ResetToDefaultsIndependent | TetrisModel/GameSettings.cs:47-54 | the reset result does not depend on the prior values, equals a new object, and resetting is idempotent |
| GameSettings.LoadFromFile | TetrisModel/GameSettings.cs:64-85 | a missing or unreadable file gives the defaults; a parsed document gives its flags and its validated multiplier; the result is always valid |
| GameSettings.LoadOfSaved | TetrisModel/GameSettings.cs:57-85 | loading the document a valid settings object saves gives that same object back |
| GameGrid.Grid.IsInside | TetrisTests/UnitTest1.cs:98-106 | a cell is inside iff both coordinates lie between 0 and the size; in a well-formed grid these are exactly the cells that can be read |
| GameGrid.Grid.IsEmpty | TetrisTests/UnitTest1.cs:109-119 | a cell is empty iff it lies inside the grid and holds 0; no cell outside the grid is empty |
| GameGrid.Grid.IsRowFull | TetrisTests/UnitTest1.cs:122-133 | a row is full iff none of its cells is empty |
| GameGrid.Grid.IsRowEmpty | TetrisLogic/GameState.cs:131 | a row is empty iff all of its cells are empty |
| GameGrid.Grid.Set | TetrisTests/UnitTest1.cs:88-95 | writing a cell stores the value there and leaves every other cell and the size unchanged |
| GameGrid.Grid.ClearFullRows | TetrisLogic/GameState.cs:157 | clearing keeps the grid's size and reports how many full rows there were |
| GameGrid.New | TetrisLogic/GameState.cs:46 | a new grid has the requested size and every cell 0 |
| GameGrid.Paint | TetrisLogic/GameState.cs:152-155 | after writing the block id into every tile position, each of those cells holds the id and every other cell is unchanged |
| GameGrid.KeepRowsCount | TetrisLogic/GameState.cs:157 | kept rows and full rows together account for every row |
| GameGrid.KeepRowsShape | TetrisLogic/GameState.cs:157 | in a grid of uniform width no kept row is full and every kept row keeps the width |
| GameGrid.KeepRowsNoneFull | TetrisLogic/GameState.cs:157 | when no row is full, every row is kept and the count is 0 |
| GameGrid.KeepRowsAppend | TetrisLogic/GameState.cs:157 | filtering a concatenation filters each part and keeps their order, so the kept rows are the rows that are not full in their original order |
| GameGrid.KeepRowsSingle | TetrisLogic/GameState.cs:157 | a single row is kept exactly when it is not full |
| GameGrid.ClearFullRowsMovesDown | TetrisLogic/GameState.cs:157 | a row that is not full moves down by the number of full rows below it, with its content intact |
| GameGrid.ClearFullRowsTopEmpty | TetrisLogic/GameState.cs:157 | the rows freed at the top, as many as were cleared, are empty |
| GameGrid.KeepRowsSubset | TetrisLogic/GameState.cs:157 | every kept row is one of the original rows |
| GameGrid.ClearedHasNoFullRow | TetrisLogic/GameState.cs:157 | after clearing, no row is full |
| GameGrid.ClearFullRowsIdempotent | TetrisLogic/GameState.cs:157 | clearing a cleared grid removes nothing and changes nothing |
| GameGrid.ClearFullRowsNoop | TetrisLogic/GameState.cs:157 | clearing a grid with no full row returns it unchanged with count 0 |
| GameGrid.ClearFullRowsKeepsValues | TetrisLogic/GameState.cs:157 | clearing brings in no cell value outside a range that contains 0 |
| Blocks.Block.TilesPositions | TetrisTests/UnitTest1.cs:223-252 | a block always has exactly 4 tiles, each the current rotation's offset translated by the block's position |
| Blocks.Block.Move | TetrisTests/UnitTest1.cs:184-199 | moving translates every tile by the same row and column delta and keeps id, tables, spawn offset and rotation state |
| Blocks.Block.RotateCW | TetrisLogic/GameState.cs:91 | clockwise rotation advances the rotation state, wrapping after the last table, and keeps the position |
| Blocks.Block.RotateCCW | TetrisLogic/GameState.cs:101 | counter-clockwise rotation steps the state back, so one clockwise step from the result gives the old state; the position is kept |
| Blocks.Block.Reset | TetrisTests/UnitTest1.cs:202-215 | reset puts the block in its spawn pose, whose tiles are the spawn tiles |
| Blocks.MoveUndo | TetrisLogic/GameState.cs:109-127 | a move followed by the opposite move restores the exact prior pose |
| Blocks.MoveCompose | TetrisLogic/GameState.cs:18-26 | two moves add up to one move by the sum |
| Blocks.RotateUndo | TetrisLogic/GameState.cs:89-107 | rotating one way and then the other restores the exact prior pose, in both orders |
| Blocks.ResetForgetsPose | TetrisTests/UnitTest1.cs:202-215 | reset after any move or rotation gives the spawn pose; reset is idempotent |
| Blocks.RotateCWTimes | TetrisTests/UnitTest1.cs:223-252 | any number of clockwise rotations keeps a well-formed block with the same id, tables and offset |
| Blocks.RotateCWTimesState | TetrisLogic/GameState.cs:89-107 | `n` clockwise rotations advance the rotation state by `n` modulo the number of tables |
| Blocks.RotateCycle | TetrisLogic/GameState.cs:89-107 | as many clockwise rotations as there are tables restore the block; so do four when the number of tables divides four |
| Queue.Rejected | TetrisTests/UnitTest1.cs:423-438 | the draws rejected by the redraw loop all repeat the previous id; the draw after them does not |
| Queue.Redraw | TetrisTests/UnitTest1.cs:423-438 | the redrawn block is the first draw whose id differs from the previous block, every draw before it repeating that id; there is none iff every draw repeats the previous id |
| Queue.GetAndUpdate | TetrisTests/UnitTest1.cs:423-438 | hands out the lookahead block and installs the drawn one, whose id differs; both are well-formed, so both ids lie in 1..7 |
| Queue.TakeMany | TetrisTests/UnitTest1.cs:440-452 | a run of takes starts with the current lookahead, has at most one more block than there are supplies of draws, and every block in it has an id in 1..7 |
| Queue.TakeManyNoRepeat | TetrisTests/UnitTest1.cs:454-465 | however many blocks are taken, no two in a row share an id; each is the first lookahead or one of the draws |
| Game.BlockFits | TetrisLogic/GameState.cs:53-64 | the scan answers true iff every tile lies on an empty cell, and false iff some tile is on an occupied or off-grid cell |
| Game.StepDown | TetrisLogic/GameState.cs:20-25 | one nudge: the block moved down a row when it fits there, else exactly the block before |
| Game.Spawn | TetrisLogic/GameState.cs:11-28 | a spawned block is at rotation 0 and the spawn column, 0 to 2 rows below the spawn row; it stays at the spawn row iff one row down does not fit, and goes two rows down iff both one and two rows down fit; it fits and lies inside whenever its spawn pose does |
| Game.SetCurrentBlock | TetrisLogic/GameState.cs:14-27 | assigning the current block spawns it on the current grid and changes nothing else; every block entering play goes through it |
| Game.MoveBlockLeft | TetrisLogic/GameState.cs:109-117 | keeps the block one column left when it fits there, else restores the exact prior block; nothing else changes; a fitting block still fits; the invariant is kept |
| Game.MoveBlockRight | TetrisLogic/GameState.cs:119-127 | keeps the block one column right when it fits there, else restores the exact prior block; nothing else changes; a fitting block still fits; the invariant is kept |
| Game.RotateBlockCW | TetrisLogic/GameState.cs:89-97 | keeps the clockwise rotation when it fits, else restores the exact prior block; nothing else changes; a fitting block still fits; the invariant is kept |
| Game.RotateBlockCCW | TetrisLogic/GameState.cs:99-107 | keeps the counter-clockwise rotation when it fits, else restores the exact prior block; nothing else changes; a fitting block still fits; the invariant is kept |
| Game.IsGameOver | TetrisLogic/GameState.cs:129-132 | the game is over iff row 0 or row 1 has a non-empty cell |
| Game.CalculateScore | TetrisLogic/GameState.cs:134-148 | 40, 100, 300 or 1200 times the multiplier for 1 to 4 cleared rows, 0 for any other count; never negative under valid settings |
| Game.ScoreIncreasesWithLines | TetrisLogic/GameState.cs:134-148 | clearing more rows at once always pays strictly more, and any clear pays something |
| Game.Lock | TetrisLogic/GameState.cs:152-155 | the block's four cells hold its id and every other cell is unchanged |
| Game.LockAndClear | TetrisLogic/GameState.cs:152-157 | after locking and clearing, the grid keeps its size, every cell holds 0 or a block id, and no row is full |
| Game.PlaceBlock | TetrisLogic/GameState.cs:150-169 | the grid is the locked and cleared one; the score grows by the points for the rows cleared and never falls; held block and settings are unchanged; when the top rows are occupied the game is over and block, queue and can-hold are untouched; otherwise the lookahead spawns, the queue takes the drawn block and hold is re-enabled; the invariant is kept |
| Game.MoveBlockDown | TetrisLogic/GameState.cs:171-180 | one row down and nothing else when that fits; otherwise exactly `PlaceBlock` on the unmoved block; the score never falls |
| Game.TileDrop | TetrisLogic/GameState.cs:182-192 | the cell just below the counted drop is occupied or off the grid, and a tile inside the grid stays inside |
| Game.TileDropEmpty | TetrisLogic/GameState.cs:182-192 | every cell a tile passes over within its drop is empty |
| Game.TilesDropDistance | TetrisLogic/GameState.cs:182-192 | the loop's count is the number of empty cells straight below the tile, ending at an occupied or off-grid cell |
| Game.MinTileDrop | TetrisLogic/GameState.cs:194-204 | the running minimum never exceeds its starting bound |
| Game.MinTileDropLower | TetrisLogic/GameState.cs:194-204 | the minimum is at most every tile's drop |
| Game.MinTileDropAttained | TetrisLogic/GameState.cs:194-204 | the minimum is either the starting bound or the drop of some tile |
| Game.DropDistance | TetrisLogic/GameState.cs:194-204 | the block's drop never exceeds the number of rows |
| Game.TileFalls | TetrisLogic/GameState.cs:182-192 | a tile falling at most its drop stays inside the grid and lands on an empty cell if it started on one |
| Game.DropBelowRows | TetrisLogic/GameState.cs:194-204 | a block inside the grid drops fewer rows than the grid has |
| Game.DropKeepsFit | TetrisLogic/GameState.cs:194-214 | after the drop the block is inside the grid, and fits if it fitted before |
| Game.BlockedBelow | TetrisLogic/GameState.cs:186 | a block whose tile has an occupied or off-grid cell right below its landing row does not fit one row further |
| Game.DropAttained | TetrisLogic/GameState.cs:194-204 | some tile's drop equals the block's drop, and the cell under that tile's landing spot is occupied or off the grid |
| Game.DropIsLowest | TetrisLogic/GameState.cs:194-214 | one row past the drop distance the block does not fit |
| Game.DropLands | TetrisLogic/GameState.cs:194-214 | hard-drop landing: fewer rows than the grid has, still inside, still fitting if it fitted, and not one row further |
| Game.BlockDropDistance | TetrisLogic/GameState.cs:194-204 | the result is below the row count, at most every tile's drop and equal to some tile's drop: the least drop over the four tiles |
| Game.Dropped | TetrisLogic/GameState.cs:214 | the block moved down by its drop distance keeps the invariant, still fits if it fitted, and could not go one row further |
| Game.DropBlock | TetrisLogic/GameState.cs:206-216 | nothing changes when hard drop is disabled; otherwise the block drops by its drop distance and is placed; the score never falls |
| Game.HoldBlock | TetrisLogic/GameState.cs:66-87 | nothing changes when hold is spent or disabled; otherwise the current block goes to hold and hold is spent, with grid, score, flags and settings unchanged; the first hold spawns the lookahead and takes the drawn block into the queue; a later hold spawns the previously held block and leaves the queue alone |
| Game.HoldOncePerLock | TetrisLogic/GameState.cs:86 | a second hold before the next lock changes nothing |
| Game.HoldSwapKeepsBlocks | TetrisLogic/GameState.cs:79-84 | a swap exchanges the ids of the current and held blocks, and a second swap attempt keeps the current block |
| Game.Reset | TetrisLogic/GameState.cs:218-233 | every cell is 0, the score is 0, nothing is held, the game is not over and hold is enabled; the current block is the new queue's first block spawned on the empty grid and the drawn block is the lookahead; the settings are kept |
| Game.Init | TetrisLogic/GameState.cs:44-51 | a new game starts like a reset: empty grid, first block spawned, drawn block as lookahead, with the settings loaded from the settings file |
| Game.InitIsReset | TetrisLogic/GameState.cs:44-51 | constructing a game equals resetting any game whose settings are the loaded ones |
| Game.SetSettings | TetrisLogic/GameState.cs:38-42 | assigning null installs default settings; any other value is installed as given; nothing else changes |

## Left out

- The controller, the window and the launcher: rendering, input mapping, the timed game loop and its floating-point delay, and the ranking file.
- JSON serialisation and file I/O in `SaveToFile` and `LoadFromFile`. A load is modelled from what parsing produced: `None` for a missing file, text that does not parse or a null document.
- `Positions.IntToString`: renders numbers as the invariant culture does. Under a culture whose negative sign is not '-', the source's interpolated text differs.
- `Position.GetHashCode`: a call into the framework's hash combiner.
- The random generator of the block queue. The queue's draws are parameters (`drawn`, or a sequence of draws for `Queue.Redraw`).
- The sources of the grid, block and queue classes are not part of this model. Neither are the seven blocks' offset tables and spawn offsets, nor the grid's row-clearing body. `ClearFullRows` is a plain filter-full-rows and pad-with-empty-rows definition.
- References and aliasing. Blocks, grids and settings are values, so mutating the settings object through another reference, or writing grid cells from outside the game state, is not modelled.
- The public setter of `CanHold` is a plain field assignment and is not modelled.
- `Queue.Redraw`: when every supplied draw repeats the previous id it returns `None`, where the source would keep drawing until an id differs.
- `GameGrid.Paint` and `Game.PlaceBlock`: writing outside the grid throws in the source. Here those writes are excluded by `requires`. `Game.Valid` keeps the current block inside the grid. It assumes that every block the queue hands out spawns inside a 22 x 10 grid (`Game.Placeable`), as every variant of the game does.
- 32-bit overflow of `Score`: the score is an unbounded integer here.
- `Game.SetSettings`: requires a valid settings object when one is given. Every settings object the program can build has its multiplier in range, because the only writer of the multiplier field validates it.

=== FILE: block.dfy ===
/** A falling piece. Each of the seven variants in the source is a subclass
    holding fixed tables of tile offsets, one table per rotation state, a spawn
    offset and an id. Those subclasses are not part of this model: a block
    here carries its tables as data, so every statement below holds for any
    variant whatever its tables are. */
module Blocks {

  import opened Positions

  datatype Block = Block(
    id: int,                          // 1..7: grid colour and variant
    tiles: seq<seq<Position>>,        // one table of 4 offsets per rotation state
    startOffset: Position,            // where the pivot sits on spawn
    rotationState: int,
    offset: Position)
  {
    predicate Wf()
    {
      && 1 <= id <= 7
      && |tiles| > 0
      && (forall k :: 0 <= k < |tiles| ==> |tiles[k]| == 4)
      && 0 <= rotationState < |tiles|
    }

    /** The absolute positions of the 4 tiles: the current rotation's
        offsets translated by the block's offset. */
    function TilesPositions(): (ps: seq<Position>)
      requires Wf()
      ensures |ps| == 4
      ensures forall i :: 0 <= i < 4 ==>
        ps[i].row - offset.row == tiles[rotationState][i].row &&
        ps[i].column - offset.column == tiles[rotationState][i].column
    {
      var table := tiles[rotationState];
      seq(4, i requires 0 <= i < 4 => Translate(table[i], offset.row, offset.column))
    }

    /** Translation by (dRow, dColumn); legality is the caller's business. */
    function Move(dRow: int, dColumn: int): (b: Block)
      requires Wf()
      ensures b.Wf()
      ensures b.id == id && b.tiles == tiles && b.startOffset == startOffset
      ensures b.rotationState == rotationState
      ensures forall i :: 0 <= i < 4 ==>
        b.TilesPositions()[i] == Translate(TilesPositions()[i], dRow, dColumn)
    {
      this.(offset := Translate(offset, dRow, dColumn))
    }

    /** Advances the rotation state, wrapping after the last table. */
    function RotateCW(): (b: Block)
      requires Wf()
      ensures b.Wf()
      ensures b.id == id && b.tiles == tiles && b.startOffset == startOffset && b.offset == offset
      ensures b.rotationState == (rotationState + 1) % |tiles|
    {
      this.(rotationState := (rotationState + 1) % |tiles|)
    }

    /** Steps the rotation state back, wrapping before the first table. */
    function RotateCCW(): (b: Block)
      requires Wf()
      ensures b.Wf()
      ensures b.id == id && b.tiles == tiles && b.startOffset == startOffset && b.offset == offset
      ensures (b.rotationState + 1) % |tiles| == rotationState
    {
      var back := if rotationState == 0 then |tiles| - 1 else rotationState - 1;
      ModUnique(back + 1, |tiles|, if rotationState == 0 then 1 else 0, rotationState);
      this.(rotationState := back)
    }

    /** Back to the spawn pose: first rotation table, spawn offset. */
    function Reset(): (b: Block)
      requires Wf()
      ensures b.Wf() && b.AtSpawn()
      ensures b.id == id && b.tiles == tiles && b.startOffset == startOffset
      ensures b.TilesPositions() == SpawnTiles()
    {
      this.(rotationState := 0, offset := startOffset)
    }

    predicate AtSpawn()
    {
      rotationState == 0 && offset == startOffset
    }

    /** Where the tiles are in the spawn pose. */
    function SpawnTiles(): seq<Position>
      requires Wf()
    {
      seq(4, i requires 0 <= i < 4 => Translate(tiles[0][i], startOffset.row, startOffset.column))
    }
  }

  /** A move followed by the opposite move restores the exact prior pose. */
  lemma MoveUndo(b: Block, dRow: int, dColumn: int)
    requires b.Wf()
    ensures b.Move(dRow, dColumn).Move(-dRow, -dColumn) == b
  {
  }

  /** Two moves add up. */
  lemma MoveCompose(b: Block, r1: int, c1: int, r2: int, c2: int)
    requires b.Wf()
    ensures b.Move(r1, c1).Move(r2, c2) == b.Move(r1 + r2, c1 + c2)
  {
  }

  /** Rotating one way and then the other restores the exact prior pose. */
  lemma RotateUndo(b: Block)
    requires b.Wf()
    ensures b.RotateCW().RotateCCW() == b
    ensures b.RotateCCW().RotateCW() == b
  {
    var m := |b.tiles|;
    var r := b.rotationState;
    if r + 1 < m {
      ModUnique(r + 1, m, 0, r + 1);
    } else {
      ModUnique(r + 1, m, 1, 0);
    }
    var c := b.RotateCCW().rotationState;
    if r == 0 {
      ModUnique(c + 1, m, 1, 0);
    } else {
      ModUnique(c + 1, m, 0, r);
    }
  }

  /** Reset forgets every earlier move and rotation. */
  lemma ResetForgetsPose(b: Block, dRow: int, dColumn: int)
    requires b.Wf()
    ensures b.Move(dRow, dColumn).Reset() == b.Reset()
    ensures b.RotateCW().Reset() == b.Reset()
    ensures b.RotateCCW().Reset() == b.Reset()
    ensures b.Reset().Reset() == b.Reset()
  {
  }

  /** `n` clockwise rotations in a row. */
  function RotateCWTimes(b: Block, n: nat): (r: Block)
    requires b.Wf()
    ensures r.Wf()
    ensures r.id == b.id && r.tiles == b.tiles && r.startOffset == b.startOffset && r.offset == b.offset
  {
    if n == 0 then b else RotateCWTimes(b, n - 1).RotateCW()
  }

  /** `a % m` is the unique remainder below `m`. */
  lemma ModUnique(a: int, m: int, q: int, r: int)
    requires m > 0 && 0 <= r < m && a == q * m + r
    ensures a % m == r
  {
    var q' := a / m;
    var r' := a % m;
    var d := q - q';
    assert d * m == r' - r by {
      assert q * m - q' * m == r' - r;
    }
    if d > 0 {
      MulAtLeast(d, m);
    } else if d < 0 {
      MulAtLeast(-d, m);
    }
  }

  lemma MulAtLeast(d: int, m: int)
    requires d >= 1 && m > 0
    ensures d * m >= m && (-d) * m <= -m
  {
    var e := d - 1;
    assert d * m == e * m + m;
    assert e * m >= 0;
  }

  lemma ModSucc(a: nat, m: nat)
    requires m > 0
    ensures ((a % m) + 1) % m == (a + 1) % m
  {
    var q := a / m;
    var r := a % m;
    assert a == q * m + r;
    if r + 1 < m {
      ModUnique(a + 1, m, q, r + 1);
      ModUnique(r + 1, m, 0, r + 1);
    } else {
      ModUnique(a + 1, m, q + 1, 0);
      ModUnique(r + 1, m, 1, 0);
    }
  }

  lemma {:induction false} RotateCWTimesState(b: Block, n: nat)
    requires b.Wf()
    ensures RotateCWTimes(b, n).rotationState == (b.rotationState + n) % |b.tiles|
  {
    var m := |b.tiles|;
    if n == 0 {
      ModUnique(b.rotationState, m, 0, b.rotationState);
    } else {
      RotateCWTimesState(b, n - 1);
      ModSucc(b.rotationState + n - 1, m);
    }
  }

  /** Cyclic law: as many clockwise rotations as there are rotation states
      bring the block back to where it started; so do four when the number
      of states divides four (one state for the O-piece, four for the others). */
  lemma RotateCycle(b: Block)
    requires b.Wf()
    ensures RotateCWTimes(b, |b.tiles|) == b
    ensures 4 % |b.tiles| == 0 ==> RotateCWTimes(b, 4) == b
  {
    var m := |b.tiles|;
    RotateCWTimesState(b, m);
    ModUnique(b.rotationState + m, m, 1, b.rotationState);
    if 4 % m == 0 {
      RotateFour(b);
    }
  }

  lemma RotateFour(b: Block)
    requires b.Wf() && 4 % |b.tiles| == 0
    ensures RotateCWTimes(b, 4) == b
  {
    var m := |b.tiles|;
    var r := b.rotationState;
    RotateCWTimesState(b, 4);
    DividesFour(m);
    if m == 1 {
      ModUnique(r + 4, 1, r + 4, 0);
    } else if m == 2 {
      ModUnique(r + 4, 2, 2, r);
    } else {
      ModUnique(r + 4, 4, 1, r);
    }
  }

  lemma DividesFour(m: int)
    requires m > 0 && 4 % m == 0
    ensures m == 1 || m == 2 || m == 4
  {
    if m > 4 {
      ModUnique(4, m, 0, 4);
    } else if m == 3 {
      ModUnique(4, 3, 1, 1);
    }
  }
}

=== FILE: game.dfy ===
/** The game-state machine: a 22 x 10 grid, the lookahead queue, the current
    and held blocks, the score, the game-over and can-hold flags and the
    settings. Every public operation of the source is a function from the
    state before to the state after. Operations that may draw a block from the
    queue take `drawn`: the block the queue's random generator hands back
    after its redraw loop, so it differs in id from the lookahead. */
module Game {

  import opened Opt
  import opened Positions
  import opened GameGrid
  import opened Blocks
  import opened Queue
  import opened GameSettings

  const Rows: nat := 22
  const Columns: nat := 10

  datatype GameState = GameState(
    grid: Grid,
    queue: BlockQueue,
    current: Block,
    held: Option<Block>,
    score: int,
    gameOver: bool,
    canHold: bool,
    settings: Settings)

  /** True iff every tile of `b` lies on an empty cell of `g`; a tile off the
      grid never fits because `IsEmpty` is false there. */
  predicate Fits(g: Grid, b: Block)
    requires g.Wf() && b.Wf()
  {
    forall i :: 0 <= i < 4 ==> g.IsEmpty(b.TilesPositions()[i].row, b.TilesPositions()[i].column)
  }

  /** `BlockFits`: scans the tiles and answers false at the first one whose
      cell is not empty. */
  method BlockFits(st: GameState) returns (fits: bool)
    requires st.grid.Wf() && st.current.Wf()
    ensures fits <==> Fits(st.grid, st.current)
    ensures !fits <==> exists i :: (0 <= i < 4 &&
      !st.grid.IsEmpty(st.current.TilesPositions()[i].row, st.current.TilesPositions()[i].column))
  {
    var ps := st.current.TilesPositions();
    var i := 0;
    while i < |ps|
      invariant 0 <= i <= |ps|
      invariant forall j :: 0 <= j < i ==> st.grid.IsEmpty(ps[j].row, ps[j].column)
    {
      if !st.grid.IsEmpty(ps[i].row, ps[i].column) {
        return false;
      }
      i := i + 1;
    }
    return true;
  }

  /** A block that fits lies inside the grid. */
  lemma FitsInside(g: Grid, b: Block)
    requires g.Wf() && b.Wf()
    ensures Fits(g, b) ==> AllInside(g, b.TilesPositions())
  {
  }

  /** A block whose spawn pose lies inside a grid of the game's size: true of
      every variant the queue hands out. */
  predicate Placeable(g: Grid, b: Block)
  {
    b.Wf() && AllInside(g, b.SpawnTiles())
  }

  ghost predicate CellsInRange(g: Grid)
    requires g.Wf()
  {
    forall r, c :: g.IsInside(r, c) ==> 0 <= g.Get(r, c) <= 7
  }

  /** What holds of every state the program can reach. */
  ghost predicate Valid(st: GameState)
  {
    && st.grid.Wf() && st.grid.rows == Rows && st.grid.columns == Columns
    && CellsInRange(st.grid)
    && Placeable(st.grid, st.current)
    && AllInside(st.grid, st.current.TilesPositions())
    && (st.held.Some? ==> Placeable(st.grid, st.held.value))
    && Placeable(st.grid, st.queue.next)
    && GameSettings.Valid(st.settings)
    && st.score >= 0
  }

  // ---------------------------------------------------------------------
  // Spawning: the `CurrentBlock` setter

  /** One nudge of the spawn rule: move down a row, and move back up if the
      block no longer fits. */
  function StepDown(g: Grid, b: Block): (r: Block)
    requires g.Wf() && b.Wf()
    ensures r.Wf() && r.id == b.id && r.tiles == b.tiles && r.startOffset == b.startOffset
    ensures r.rotationState == b.rotationState
    ensures Fits(g, b.Move(1, 0)) ==> r == b.Move(1, 0)
    ensures !Fits(g, b.Move(1, 0)) ==> r == b
  {
    var moved := b.Move(1, 0);
    if Fits(g, moved) then moved
    else
      MoveUndo(b, 1, 0);
      moved.Move(-1, 0)
  }

  /** The block as it enters play: reset to its spawn pose, then nudged
      down by up to two rows, each row kept only when the block fits there. */
  function Spawn(g: Grid, b: Block): (r: Block)
    requires g.Wf() && b.Wf()
    ensures r.Wf() && r.id == b.id && r.tiles == b.tiles && r.startOffset == b.startOffset
    ensures r.rotationState == 0 && r.offset.column == b.startOffset.column
    ensures 0 <= r.offset.row - b.startOffset.row <= 2
    ensures r.offset.row == b.startOffset.row <==> !Fits(g, b.Reset().Move(1, 0))
    ensures r.offset.row == b.startOffset.row + 2 <==> Fits(g, b.Reset().Move(1, 0)) && Fits(g, b.Reset().Move(2, 0))
    ensures r.offset.row > b.startOffset.row ==> Fits(g, r)
    ensures Fits(g, b.Reset()) ==> Fits(g, r)
    ensures AllInside(g, b.SpawnTiles()) ==> AllInside(g, r.TilesPositions())
  {
    var b0 := b.Reset();
    MoveCompose(b0, 1, 0, 1, 0);
    var b1 := StepDown(g, b0);
    var b2 := StepDown(g, b1);
    FitsInside(g, b2);
    b2
  }

  /** The `CurrentBlock` setter, through which every block enters play: the
      block is spawned on the current grid and nothing else changes. */
  function SetCurrentBlock(st: GameState, b: Block): (r: GameState)
    requires st.grid.Wf() && b.Wf()
    ensures r.current == Spawn(st.grid, b)
    ensures r == st.(current := r.current)
  {
    st.(current := Spawn(st.grid, b))
  }

  // ---------------------------------------------------------------------
  // Moves and rotations: apply, and undo when the block no longer fits

  /** `r` differs from `st` at most in the current block, which is either
      the transformed block, when that fits, or exactly the old block. */
  predicate KeepsOrRestores(st: GameState, r: GameState, transformed: Block)
    requires st.grid.Wf() && transformed.Wf()
  {
    && r == st.(current := r.current)
    && (Fits(st.grid, transformed) ==> r.current == transformed)
    && (!Fits(st.grid, transformed) ==> r.current == st.current)
  }

  function MoveBlockLeft(st: GameState): (r: GameState)
    requires Valid(st)
    ensures Valid(r)
    ensures KeepsOrRestores(st, r, st.current.Move(0, -1))
    ensures Fits(st.grid, st.current) ==> Fits(r.grid, r.current)
  {
    var moved := st.current.Move(0, -1);
    if Fits(st.grid, moved) then
      FitsInside(st.grid, moved);
      st.(current := moved)
    else
      MoveUndo(st.current, 0, -1);
      st.(current := moved.Move(0, 1))
  }

  function MoveBlockRight(st: GameState): (r: GameState)
    requires Valid(st)
    ensures Valid(r)
    ensures KeepsOrRestores(st, r, st.current.Move(0, 1))
    ensures Fits(st.grid, st.current) ==> Fits(r.grid, r.current)
  {
    var moved := st.current.Move(0, 1);
    if Fits(st.grid, moved) then
      FitsInside(st.grid, moved);
      st.(current := moved)
    else
      MoveUndo(st.current, 0, 1);
      st.(current := moved.Move(0, -1))
  }

  function RotateBlockCW(st: GameState): (r: GameState)
    requires Valid(st)
    ensures Valid(r)
    ensures KeepsOrRestores(st, r, st.current.RotateCW())
    ensures Fits(st.grid, st.current) ==> Fits(r.grid, r.current)
  {
    var rotated := st.current.RotateCW();
    if Fits(st.grid, rotated) then
      FitsInside(st.grid, rotated);
      ResetForgetsPose(st.current, 0, 0);
      st.(current := rotated)
    else
      RotateUndo(st.current);
      st.(current := rotated.RotateCCW())
  }

  function RotateBlockCCW(st: GameState): (r: GameState)
    requires Valid(st)
    ensures Valid(r)
    ensures KeepsOrRestores(st, r, st.current.RotateCCW())
    ensures Fits(st.grid, st.current) ==> Fits(r.grid, r.current)
  {
    var rotated := st.current.RotateCCW();
    if Fits(st.grid, rotated) then
      FitsInside(st.grid, rotated);
      ResetForgetsPose(st.current, 0, 0);
      st.(current := rotated)
    else
      RotateUndo(st.current);
      st.(current := rotated.RotateCW())
  }

  // ---------------------------------------------------------------------
  // Game over, scoring and locking

  /** The game is over when either of the two hidden top rows holds a tile. */
  function IsGameOver(g: Grid): (over: bool)
    requires g.Wf() && g.rows >= 2
    ensures over <==> exists c :: 0 <= c < g.columns && (g.cells[0][c] != 0 || g.cells[1][c] != 0)
  {
    !(g.IsRowEmpty(0) && g.IsRowEmpty(1))
  }

  /** Points for clearing `lines` rows at once, before the multiplier. */
  function BaseScore(lines: int): nat
  {
    match lines
    case 1 => 40
    case 2 => 100
    case 3 => 300
    case 4 => 1200
    case _ => 0
  }

  /** Points awarded for one lock: 40, 100, 300 or 1200 for 1 to 4 cleared
      rows and nothing otherwise, times the settings' multiplier. */
  function CalculateScore(lines: int, s: Settings): (points: int)
    ensures lines == 1 ==> points == 40 * s.pointsMultiplier
    ensures lines == 2 ==> points == 100 * s.pointsMultiplier
    ensures lines == 3 ==> points == 300 * s.pointsMultiplier
    ensures lines == 4 ==> points == 1200 * s.pointsMultiplier
    ensures !(1 <= lines <= 4) ==> points == 0
    ensures GameSettings.Valid(s) ==> points >= 0
  {
    BaseScore(lines) * s.pointsMultiplier
  }

  /** Clearing more rows at once never pays less, and any clear pays something. */
  lemma ScoreIncreasesWithLines(a: int, b: int, s: Settings)
    requires GameSettings.Valid(s) && 1 <= a < b <= 4
    ensures 0 < CalculateScore(a, s) < CalculateScore(b, s)
  {
  }

  /** The grid after the current block is written into it, before clearing. */
  function Lock(g: Grid, b: Block): (h: Grid)
    requires g.Wf() && b.Wf() && AllInside(g, b.TilesPositions())
    ensures h.Wf() && h.rows == g.rows && h.columns == g.columns
    ensures forall i :: 0 <= i < 4 ==> h.Get(b.TilesPositions()[i].row, b.TilesPositions()[i].column) == b.id
    ensures forall r, c :: g.IsInside(r, c) && Position(r, c) !in b.TilesPositions() ==> h.Get(r, c) == g.Get(r, c)
  {
    Paint(g, b.TilesPositions(), b.id)
  }

  /** The grid after locking the current block and clearing full rows, with
      the number of rows cleared. No full row is left, and every cell still
      holds 0 or a block id. */
  function LockAndClear(st: GameState): (res: (Grid, nat))
    requires Valid(st)
    ensures res == Lock(st.grid, st.current).ClearFullRows()
    ensures res.0.Wf() && res.0.rows == Rows && res.0.columns == Columns
    ensures CellsInRange(res.0)
    ensures forall row :: 0 <= row < Rows ==> !res.0.IsRowFull(row)
  {
    var locked := Lock(st.grid, st.current);
    ClearedHasNoFullRow(locked);
    ClearFullRowsKeepsValues(locked, 7);
    locked.ClearFullRows()
  }

  /** `PlaceBlock`: lock, clear full rows, score, then either end the game or
      bring in the next block from the queue. */
  function PlaceBlock(st: GameState, drawn: Block): (r: GameState)
    requires Valid(st) && Follows(st.queue, drawn) && Placeable(st.grid, drawn)
    ensures Valid(r)
    ensures r.grid == LockAndClear(st).0
    ensures r.score - st.score == CalculateScore(LockAndClear(st).1, st.settings)
    ensures r.score >= st.score
    ensures r.held == st.held && r.settings == st.settings
    ensures r.gameOver == (st.gameOver || IsGameOver(r.grid))
    ensures IsGameOver(r.grid) ==> r.current == st.current && r.queue == st.queue && r.canHold == st.canHold
    ensures !IsGameOver(r.grid) ==> r.current == Spawn(r.grid, st.queue.next) && r.queue.next == drawn && r.canHold
  {
    var (cleared, lines) := LockAndClear(st);
    var scored := st.(grid := cleared, score := st.score + CalculateScore(lines, st.settings));
    if IsGameOver(cleared) then
      scored.(gameOver := true)
    else
      var (next, q) := GetAndUpdate(st.queue, drawn);
      SetCurrentBlock(scored.(queue := q, canHold := true), next)
  }

  /** `MoveBlockDown`: one row down when the block fits there; otherwise the
      block goes back up and is locked. Only the lock touches grid and score. */
  function MoveBlockDown(st: GameState, drawn: Block): (r: GameState)
    requires Valid(st) && Follows(st.queue, drawn) && Placeable(st.grid, drawn)
    ensures Valid(r)
    ensures Fits(st.grid, st.current.Move(1, 0)) ==> r == st.(current := st.current.Move(1, 0))
    ensures !Fits(st.grid, st.current.Move(1, 0)) ==> r == PlaceBlock(st, drawn)
    ensures r.score >= st.score
  {
    var moved := st.current.Move(1, 0);
    if Fits(st.grid, moved) then
      FitsInside(st.grid, moved);
      ResetForgetsPose(st.current, 1, 0);
      st.(current := moved)
    else
      MoveUndo(st.current, 1, 0);
      PlaceBlock(st.(current := moved.Move(-1, 0)), drawn)
  }

  // ---------------------------------------------------------------------
  // Drop distance and hard drop

  /** How many empty cells lie straight below (row, column) before the first
      occupied cell or the floor. */
  function TileDrop(g: Grid, row: int, column: int): (d: nat)
    requires g.Wf()
    ensures !g.IsEmpty(row + d + 1, column)
    ensures 0 <= row < g.rows ==> row + d < g.rows
    decreases g.rows - row
  {
    if g.IsEmpty(row + 1, column) then 1 + TileDrop(g, row + 1, column) else 0
  }

  /** Every cell the tile passes on its way down is empty. */
  lemma {:induction false} TileDropEmpty(g: Grid, row: int, column: int, k: int)
    requires g.Wf() && 1 <= k <= TileDrop(g, row, column)
    ensures g.IsEmpty(row + k, column)
    decreases k
  {
    if k > 1 {
      TileDropEmpty(g, row + 1, column, k - 1);
    }
  }

  /** The smallest `TileDrop` over `ps`, starting from `bound`. */
  function MinTileDrop(g: Grid, ps: seq<Position>, bound: nat): (d: nat)
    requires g.Wf()
    ensures d <= bound
  {
    if |ps| == 0 then bound
    else
      var t := TileDrop(g, ps[0].row, ps[0].column);
      MinTileDrop(g, ps[1..], if t < bound then t else bound)
  }

  /** `MinTileDrop` is a lower bound of every tile's drop ... */
  lemma {:induction false} MinTileDropLower(g: Grid, ps: seq<Position>, bound: nat, i: int)
    requires g.Wf() && 0 <= i < |ps|
    ensures MinTileDrop(g, ps, bound) <= TileDrop(g, ps[i].row, ps[i].column)
  {
    var t := TileDrop(g, ps[0].row, ps[0].column);
    var bound' := if t < bound then t else bound;
    if i > 0 {
      assert ps[1..][i - 1] == ps[i];
      MinTileDropLower(g, ps[1..], bound', i - 1);
    } else {
      assert MinTileDrop(g, ps[1..], bound') <= bound';
    }
  }

  /** ... and, unless it is `bound` itself, equals one of them. */
  lemma {:induction false} MinTileDropAttained(g: Grid, ps: seq<Position>, bound: nat) returns (i: int)
    requires g.Wf()
    ensures MinTileDrop(g, ps, bound) == bound ||
      (0 <= i < |ps| && MinTileDrop(g, ps, bound) == TileDrop(g, ps[i].row, ps[i].column))
  {
    i := 0;
    if |ps| > 0 {
      var t := TileDrop(g, ps[0].row, ps[0].column);
      var bound' := if t < bound then t else bound;
      var j := MinTileDropAttained(g, ps[1..], bound');
      if MinTileDrop(g, ps[1..], bound') == bound' {
        i := 0;
      } else {
        i := j + 1;
        assert ps[1..][j] == ps[i];
      }
    }
  }

  /** How far the block would fall as a whole: the least drop over its four
      tiles, and never more than the number of rows. */
  function DropDistance(g: Grid, b: Block): (d: nat)
    requires g.Wf() && b.Wf()
    ensures d <= g.rows
  {
    MinTileDrop(g, b.TilesPositions(), g.rows)
  }

  /** A tile falling no further than its `TileDrop` stays inside the grid,
      and lands on an empty cell if it started on one. */
  lemma TileFalls(g: Grid, p: Position, d: nat)
    requires g.Wf() && g.IsInside(p.row, p.column) && d <= TileDrop(g, p.row, p.column)
    ensures g.IsInside(p.row + d, p.column)
    ensures g.IsEmpty(p.row, p.column) ==> g.IsEmpty(p.row + d, p.column)
  {
    if d > 0 {
      TileDropEmpty(g, p.row, p.column, d);
    }
  }

  /** A block inside the grid drops fewer rows than the grid has. */
  lemma DropBelowRows(g: Grid, b: Block)
    requires g.Wf() && b.Wf() && AllInside(g, b.TilesPositions())
    ensures DropDistance(g, b) < g.rows
  {
    var ps := b.TilesPositions();
    assert g.IsInside(ps[0].row, ps[0].column);
    MinTileDropLower(g, ps, g.rows, 0);
  }

  /** After the drop the block is still inside, and fits if it did before. */
  lemma DropKeepsFit(g: Grid, b: Block)
    requires g.Wf() && b.Wf() && AllInside(g, b.TilesPositions())
    ensures AllInside(g, b.Move(DropDistance(g, b), 0).TilesPositions())
    ensures Fits(g, b) ==> Fits(g, b.Move(DropDistance(g, b), 0))
  {
    var ps := b.TilesPositions();
    var d := DropDistance(g, b);
    var qs := b.Move(d, 0).TilesPositions();
    forall j | 0 <= j < 4
      ensures g.IsInside(qs[j].row, qs[j].column)
      ensures g.IsEmpty(ps[j].row, ps[j].column) ==> g.IsEmpty(qs[j].row, qs[j].column)
    {
      assert qs[j] == Position(ps[j].row + d, ps[j].column);
      assert g.IsInside(ps[j].row, ps[j].column);
      MinTileDropLower(g, ps, g.rows, j);
      TileFalls(g, ps[j], d);
    }
  }

  /** A block with a tile `d + 1` rows above an occupied cell (or the floor)
      does not fit `d + 1` rows down. */
  lemma BlockedBelow(g: Grid, b: Block, i: int, d: nat)
    requires g.Wf() && b.Wf() && 0 <= i < 4
    requires !g.IsEmpty(b.TilesPositions()[i].row + d + 1, b.TilesPositions()[i].column)
    ensures !Fits(g, b.Move(d + 1, 0))
  {
    var q := b.Move(d + 1, 0).TilesPositions()[i];
    assert q == Position(b.TilesPositions()[i].row + d + 1, b.TilesPositions()[i].column);
  }

  /** Some tile of the block has exactly the drop distance below it, so the
      cell under its landing spot is occupied or off the grid. */
  lemma DropAttained(g: Grid, b: Block) returns (i: int)
    requires g.Wf() && b.Wf() && AllInside(g, b.TilesPositions())
    ensures 0 <= i < 4
    ensures DropDistance(g, b) == TileDrop(g, b.TilesPositions()[i].row, b.TilesPositions()[i].column)
    ensures !g.IsEmpty(b.TilesPositions()[i].row + DropDistance(g, b) + 1, b.TilesPositions()[i].column)
  {
    DropBelowRows(g, b);
    i := MinTileDropAttained(g, b.TilesPositions(), g.rows);
  }

  /** One row past the drop distance, the block no longer fits. */
  lemma DropIsLowest(g: Grid, b: Block)
    requires g.Wf() && b.Wf() && AllInside(g, b.TilesPositions())
    ensures !Fits(g, b.Move(DropDistance(g, b) + 1, 0))
  {
    var i := DropAttained(g, b);
    BlockedBelow(g, b, i, DropDistance(g, b));
  }

  /** The hard-drop landing spot: a block inside the grid drops less than the
      number of rows; it stays inside, and still fits after the drop if it
      fitted before; and it cannot go one row further. */
  lemma DropLands(g: Grid, b: Block)
    requires g.Wf() && b.Wf() && AllInside(g, b.TilesPositions())
    ensures DropDistance(g, b) < g.rows
    ensures AllInside(g, b.Move(DropDistance(g, b), 0).TilesPositions())
    ensures Fits(g, b) ==> Fits(g, b.Move(DropDistance(g, b), 0))
    ensures !Fits(g, b.Move(DropDistance(g, b) + 1, 0))
  {
    DropBelowRows(g, b);
    DropKeepsFit(g, b);
    DropIsLowest(g, b);
  }

  /** `TilesDropDistance`: counts empty cells below one tile. The loop stops
      because a cell below the floor is not empty. */
  method TilesDropDistance(g: Grid, p: Position) returns (drop: nat)
    requires g.Wf()
    ensures forall r :: p.row < r <= p.row + drop ==> g.IsEmpty(r, p.column)
    ensures !g.IsEmpty(p.row + drop + 1, p.column)
    ensures drop == TileDrop(g, p.row, p.column)
  {
    drop := 0;
    while g.IsEmpty(p.row + drop + 1, p.column)
      invariant forall r :: p.row < r <= p.row + drop ==> g.IsEmpty(r, p.column)
      invariant TileDrop(g, p.row + drop, p.column) + drop == TileDrop(g, p.row, p.column)
      decreases g.rows - (p.row + drop)
    {
      drop := drop + 1;
    }
  }

  /** `BlockDropDistance`: the least `TilesDropDistance` over the four tiles,
      starting from the number of rows. */
  method BlockDropDistance(st: GameState) returns (drop: nat)
    requires Valid(st)
    ensures drop < Rows
    ensures forall i :: 0 <= i < 4 ==>
      drop <= TileDrop(st.grid, st.current.TilesPositions()[i].row, st.current.TilesPositions()[i].column)
    ensures exists i :: (0 <= i < 4 &&
      drop == TileDrop(st.grid, st.current.TilesPositions()[i].row, st.current.TilesPositions()[i].column))
    ensures drop == DropDistance(st.grid, st.current)
  {
    var ps := st.current.TilesPositions();
    drop := st.grid.rows;
    var i := 0;
    while i < |ps|
      invariant 0 <= i <= |ps|
      invariant MinTileDrop(st.grid, ps[i..], drop) == DropDistance(st.grid, st.current)
    {
      var t := TilesDropDistance(st.grid, ps[i]);
      assert ps[i..][1..] == ps[i + 1..];
      drop := if t < drop then t else drop;
      i := i + 1;
    }
    assert ps[i..] == [];
    DropBelowRows(st.grid, st.current);
    forall j | 0 <= j < 4
      ensures drop <= TileDrop(st.grid, ps[j].row, ps[j].column)
    {
      MinTileDropLower(st.grid, ps, st.grid.rows, j);
    }
    var k := MinTileDropAttained(st.grid, ps, st.grid.rows);
  }

  /** The state with the current block moved down by its drop distance: the
      block stays inside the grid, fits there if it fitted before, and could
      not go one row further. */
  function Dropped(st: GameState): (r: GameState)
    requires Valid(st)
    ensures Valid(r)
    ensures r == st.(current := st.current.Move(DropDistance(st.grid, st.current), 0))
    ensures Fits(st.grid, st.current) ==> Fits(r.grid, r.current)
    ensures !Fits(st.grid, st.current.Move(DropDistance(st.grid, st.current) + 1, 0))
  {
    DropLands(st.grid, st.current);
    ResetForgetsPose(st.current, DropDistance(st.grid, st.current), 0);
    st.(current := st.current.Move(DropDistance(st.grid, st.current), 0))
  }

  /** `DropBlock`: nothing when hard drop is disabled; otherwise the block
      falls by its drop distance and is locked there. */
  function DropBlock(st: GameState, drawn: Block): (r: GameState)
    requires Valid(st) && Follows(st.queue, drawn) && Placeable(st.grid, drawn)
    ensures Valid(r)
    ensures !st.settings.dropBlockEnabled ==> r == st
    ensures st.settings.dropBlockEnabled ==> r == PlaceBlock(Dropped(st), drawn)
    ensures r.score >= st.score
  {
    if !st.settings.dropBlockEnabled then st
    else PlaceBlock(Dropped(st), drawn)
  }

  // ---------------------------------------------------------------------
  // Hold

  /** `HoldBlock`: once per lock, when enabled. The first hold parks the
      current block and takes the lookahead; later holds swap current and
      held without touching the queue. */
  function HoldBlock(st: GameState, drawn: Block): (r: GameState)
    requires Valid(st) && Follows(st.queue, drawn) && Placeable(st.grid, drawn)
    ensures Valid(r)
    ensures !st.canHold || !st.settings.holdingBlockEnabled ==> r == st
    ensures st.canHold && st.settings.holdingBlockEnabled ==>
      && r.held == Some(st.current)
      && !r.canHold
      && r.grid == st.grid && r.score == st.score && r.gameOver == st.gameOver && r.settings == st.settings
    ensures st.canHold && st.settings.holdingBlockEnabled && st.held.None? ==>
      r.current == Spawn(st.grid, st.queue.next) && r.queue.next == drawn
    ensures st.canHold && st.settings.holdingBlockEnabled && st.held.Some? ==>
      r.current == Spawn(st.grid, st.held.value) && r.queue == st.queue
  {
    if !st.canHold || !st.settings.holdingBlockEnabled then st
    else if st.held.None? then
      var (next, q) := GetAndUpdate(st.queue, drawn);
      SetCurrentBlock(st.(held := Some(st.current), queue := q, canHold := false), next)
    else
      SetCurrentBlock(st.(held := Some(st.current), canHold := false), st.held.value)
  }

  // ---------------------------------------------------------------------
  // Construction, reset and settings

  /** `Reset`: an empty grid, a new queue whose first block is `first`, the
      first block taken from it as current, and score and flags restarted.
      The settings are kept. */
  function Reset(st: GameState, first: Block, drawn: Block): (r: GameState)
    requires GameSettings.Valid(st.settings)
    requires first.Wf() && drawn.Wf() && drawn.id != first.id
    requires AllInside(GameGrid.New(Rows, Columns), first.SpawnTiles())
    requires AllInside(GameGrid.New(Rows, Columns), drawn.SpawnTiles())
    ensures Valid(r)
    ensures forall row, c :: r.grid.IsInside(row, c) ==> r.grid.Get(row, c) == 0
    ensures r.score == 0 && r.held.None? && !r.gameOver && r.canHold
    ensures r.settings == st.settings
    ensures r.current == Spawn(r.grid, first) && r.queue.next == drawn
  {
    var g := GameGrid.New(Rows, Columns);
    var (next, q) := GetAndUpdate(BlockQueue(first), drawn);
    SetCurrentBlock(GameState(g, q, next, None, 0, false, true, st.settings), next)
  }

  /** The constructor: like `Reset`, with the settings read from the
      settings file (`loaded` is what reading and parsing it produced). */
  function Init(loaded: Option<Document>, first: Block, drawn: Block): (r: GameState)
    requires first.Wf() && drawn.Wf() && drawn.id != first.id
    requires AllInside(GameGrid.New(Rows, Columns), first.SpawnTiles())
    requires AllInside(GameGrid.New(Rows, Columns), drawn.SpawnTiles())
    ensures Valid(r)
    ensures r.score == 0 && r.held.None? && !r.gameOver && r.canHold
    ensures forall row, c :: r.grid.IsInside(row, c) ==> r.grid.Get(row, c) == 0
    ensures r.current == Spawn(r.grid, first) && r.queue.next == drawn
    ensures r.settings == LoadFromFile(loaded)
  {
    var g := GameGrid.New(Rows, Columns);
    var (next, q) := GetAndUpdate(BlockQueue(first), drawn);
    SetCurrentBlock(GameState(g, q, next, None, 0, false, true, LoadFromFile(loaded)), next)
  }

  /** Constructing a game is resetting one whose settings were just loaded:
      the state a reset produces does not depend on the state it started from. */
  lemma InitIsReset(loaded: Option<Document>, st: GameState, first: Block, drawn: Block)
    requires first.Wf() && drawn.Wf() && drawn.id != first.id
    requires AllInside(GameGrid.New(Rows, Columns), first.SpawnTiles())
    requires AllInside(GameGrid.New(Rows, Columns), drawn.SpawnTiles())
    requires st.settings == LoadFromFile(loaded)
    ensures Init(loaded, first, drawn) == Reset(st, first, drawn)
  {
  }

  /** A hold that took effect is not repeated before the next lock. */
  lemma HoldOncePerLock(st: GameState, d1: Block, d2: Block)
    requires Valid(st) && Follows(st.queue, d1) && Placeable(st.grid, d1)
    requires st.canHold && st.settings.holdingBlockEnabled
    requires Follows(HoldBlock(st, d1).queue, d2) && Placeable(st.grid, d2)
    ensures HoldBlock(HoldBlock(st, d1), d2) == HoldBlock(st, d1)
  {
  }

  /** Swapping with the held block keeps the same two blocks in play. */
  lemma HoldSwapKeepsBlocks(st: GameState, drawn: Block)
    requires Valid(st) && Follows(st.queue, drawn) && Placeable(st.grid, drawn)
    requires st.canHold && st.settings.holdingBlockEnabled && st.held.Some?
    ensures HoldBlock(st, drawn).current.id == st.held.value.id
    ensures HoldBlock(st, drawn).held.value.id == st.current.id
    ensures HoldBlock(HoldBlock(st, drawn), drawn).current == HoldBlock(st, drawn).current
  {
  }

  /** The `Settings` setter: a null assignment installs default settings. */
  function SetSettings(st: GameState, s: Option<Settings>): (r: GameState)
    requires Valid(st) && (s.Some? ==> GameSettings.Valid(s.value))
    ensures Valid(r)
    ensures s.None? ==> r.settings == GameSettings.New()
    ensures s.Some? ==> r.settings == s.value
    ensures r == st.(settings := r.settings)
  {
    st.(settings := s.GetOr(GameSettings.New()))
  }
}

=== FILE: grid.dfy ===
/** The playing field: `rows` x `columns` cells, 0 for empty and a block id
    for an occupied cell. The source of the grid class is not part of this
    model; its behaviour here is what the game state relies on and what the
    unit tests assert of it. */
module GameGrid {

  import opened Positions

  datatype Grid = Grid(rows: nat, columns: nat, cells: seq<seq<int>>) {

    predicate Wf()
    {
      |cells| == rows && forall r :: 0 <= r < |cells| ==> |cells[r]| == columns
    }

    /** A cell is inside exactly when both coordinates lie between 0 and the
        size; in a well-formed grid those are the cells that can be read.
        Negative coordinates and coordinates at or past the size are outside. */
    function IsInside(row: int, column: int): (inside: bool)
      ensures Wf() ==> (inside <==> 0 <= row < |cells| && 0 <= column < |cells[row]|)
      ensures row < 0 || column < 0 || row >= rows || column >= columns ==> !inside
      ensures 0 <= row < rows && 0 <= column < columns ==> inside
    {
      0 <= row < rows && 0 <= column < columns
    }

    function Get(row: int, column: int): int
      requires Wf() && IsInside(row, column)
    {
      cells[row][column]
    }

    /** Writing a cell changes that cell and no other. */
    function Set(row: int, column: int, value: int): (g: Grid)
      requires Wf() && IsInside(row, column)
      ensures g.Wf() && g.rows == rows && g.columns == columns
      ensures g.Get(row, column) == value
      ensures forall r, c :: IsInside(r, c) && (r != row || c != column) ==> g.Get(r, c) == Get(r, c)
    {
      Grid(rows, columns, cells[row := cells[row][column := value]])
    }

    /** A cell outside the grid is never empty: this is what stops a falling
        tile at the floor and the walls. */
    function IsEmpty(row: int, column: int): (empty: bool)
      requires Wf()
      ensures !IsInside(row, column) ==> !empty
      ensures IsInside(row, column) ==> (empty <==> Get(row, column) == 0)
    {
      IsInside(row, column) && cells[row][column] == 0
    }

    /** A row is full iff none of its cells is empty. */
    function IsRowFull(row: int): (full: bool)
      requires Wf() && 0 <= row < rows
      ensures full ==> forall c :: 0 <= c < columns ==> !IsEmpty(row, c)
      ensures !full ==> exists c :: 0 <= c < columns && cells[row][c] == 0 && IsEmpty(row, c)
    {
      forall c :: 0 <= c < columns ==> cells[row][c] != 0
    }

    /** A row is empty iff every one of its cells is empty. */
    function IsRowEmpty(row: int): (empty: bool)
      requires Wf() && 0 <= row < rows
      ensures empty ==> forall c :: 0 <= c < columns ==> IsEmpty(row, c)
      ensures !empty ==> exists c :: 0 <= c < columns && cells[row][c] != 0 && !IsEmpty(row, c)
    {
      forall c :: 0 <= c < columns ==> cells[row][c] == 0
    }

    /** Removes every full row; the rows above move down and empty rows
        fill the top. Returns the new grid and the number of rows removed. */
    function ClearFullRows(): (res: (Grid, nat))
      requires Wf()
      ensures res.0.Wf() && res.0.rows == rows && res.0.columns == columns
      ensures res.1 == CountFull(cells, columns)
    {
      var kept := KeepRows(cells, columns);
      KeepRowsCount(cells, columns);
      KeepRowsShape(cells, columns);
      var n := rows - |kept|;
      (Grid(rows, columns, EmptyRows(n, columns) + kept), n)
    }
  }

  predicate Full(row: seq<int>)
  {
    forall c :: 0 <= c < |row| ==> row[c] != 0
  }

  function EmptyRow(columns: nat): (row: seq<int>)
    ensures |row| == columns && forall c :: 0 <= c < columns ==> row[c] == 0
  {
    seq(columns, _ => 0)
  }

  function EmptyRows(n: nat, columns: nat): (rows: seq<seq<int>>)
    ensures |rows| == n && forall r :: 0 <= r < n ==> rows[r] == EmptyRow(columns)
  {
    seq(n, _ => EmptyRow(columns))
  }

  /** A grid of the given size with every cell 0. */
  function New(rows: nat, columns: nat): (g: Grid)
    ensures g.Wf() && g.rows == rows && g.columns == columns
    ensures forall r, c :: g.IsInside(r, c) ==> g.Get(r, c) == 0
  {
    Grid(rows, columns, EmptyRows(rows, columns))
  }

  /** The rows that are not full, in their original order. */
  function KeepRows(cells: seq<seq<int>>, columns: nat): seq<seq<int>>
  {
    if |cells| == 0 then []
    else if Full(cells[|cells| - 1]) then KeepRows(cells[..|cells| - 1], columns)
    else KeepRows(cells[..|cells| - 1], columns) + [cells[|cells| - 1]]
  }

  /** The number of full rows. */
  function CountFull(cells: seq<seq<int>>, columns: nat): nat
  {
    if |cells| == 0 then 0
    else CountFull(cells[..|cells| - 1], columns) + if Full(cells[|cells| - 1]) then 1 else 0
  }

  /** The kept rows and the full rows together account for every row. */
  lemma {:induction false} KeepRowsCount(cells: seq<seq<int>>, columns: nat)
    ensures |KeepRows(cells, columns)| + CountFull(cells, columns) == |cells|
  {
    if |cells| > 0 {
      KeepRowsCount(cells[..|cells| - 1], columns);
    }
  }

  /** Kept rows keep their width, and none of them is full. */
  lemma {:induction false} KeepRowsShape(cells: seq<seq<int>>, columns: nat)
    requires forall r :: 0 <= r < |cells| ==> |cells[r]| == columns
    ensures forall r :: 0 <= r < |KeepRows(cells, columns)| ==> |KeepRows(cells, columns)[r]| == columns
    ensures forall r :: 0 <= r < |KeepRows(cells, columns)| ==> !Full(KeepRows(cells, columns)[r])
  {
    if |cells| > 0 {
      KeepRowsShape(cells[..|cells| - 1], columns);
    }
  }

  /** Rows with no full row among them are all kept. */
  lemma {:induction false} KeepRowsNoneFull(cells: seq<seq<int>>, columns: nat)
    requires forall r :: 0 <= r < |cells| ==> !Full(cells[r])
    ensures KeepRows(cells, columns) == cells
    ensures CountFull(cells, columns) == 0
  {
    if |cells| > 0 {
      KeepRowsNoneFull(cells[..|cells| - 1], columns);
    }
  }

  /** After clearing, no row of a grid with at least one column is full. */
  lemma ClearedHasNoFullRow(g: Grid)
    requires g.Wf() && g.columns > 0
    ensures forall r :: 0 <= r < g.rows ==> !g.ClearFullRows().0.IsRowFull(r)
  {
    var kept := KeepRows(g.cells, g.columns);
    KeepRowsCount(g.cells, g.columns);
    KeepRowsShape(g.cells, g.columns);
    var n := g.rows - |kept|;
    var h := g.ClearFullRows().0;
    forall r | 0 <= r < g.rows
      ensures !h.IsRowFull(r)
    {
      if r < n {
        assert h.cells[r][0] == 0;
      } else {
        assert h.cells[r] == kept[r - n];
        assert !Full(kept[r - n]);
      }
    }
  }

  /** Clearing is idempotent: a second clear removes nothing and changes nothing. */
  lemma ClearFullRowsIdempotent(g: Grid)
    requires g.Wf() && g.columns > 0
    ensures g.ClearFullRows().0.ClearFullRows() == (g.ClearFullRows().0, 0)
  {
    var h := g.ClearFullRows().0;
    ClearedHasNoFullRow(g);
    assert forall r :: 0 <= r < |h.cells| ==> !Full(h.cells[r]) by {
      forall r | 0 <= r < |h.cells| ensures !Full(h.cells[r]) {
        assert !h.IsRowFull(r);
      }
    }
    KeepRowsNoneFull(h.cells, h.columns);
    assert EmptyRows(0, h.columns) + h.cells == h.cells;
  }

  /** Clearing a grid without full rows returns it unchanged with count 0. */
  lemma ClearFullRowsNoop(g: Grid)
    requires g.Wf() && forall r :: 0 <= r < g.rows ==> !g.IsRowFull(r)
    ensures g.ClearFullRows() == (g, 0)
  {
    assert forall r :: 0 <= r < |g.cells| ==> !Full(g.cells[r]) by {
      forall r | 0 <= r < |g.cells| ensures !Full(g.cells[r]) {
        assert !g.IsRowFull(r);
      }
    }
    KeepRowsNoneFull(g.cells, g.columns);
    assert EmptyRows(0, g.columns) + g.cells == g.cells;
  }

  /** Clearing keeps every cell value within a range that contains 0. */
  lemma ClearFullRowsKeepsValues(g: Grid, hi: int)
    requires g.Wf() && 0 <= hi
    requires forall r, c :: g.IsInside(r, c) ==> 0 <= g.Get(r, c) <= hi
    ensures forall r, c :: g.IsInside(r, c) ==> 0 <= g.ClearFullRows().0.Get(r, c) <= hi
  {
    KeepRowsCount(g.cells, g.columns);
    KeepRowsSubset(g.cells, g.columns);
    var kept := KeepRows(g.cells, g.columns);
    var n := g.rows - |kept|;
    var h := g.ClearFullRows().0;
    forall r, c | g.IsInside(r, c)
      ensures 0 <= h.Get(r, c) <= hi
    {
      if r >= n {
        assert h.cells[r] == kept[r - n];
        assert kept[r - n] in g.cells;
        var j :| 0 <= j < |g.cells| && g.cells[j] == kept[r - n];
        assert g.IsInside(j, c);
      }
    }
  }

  /** Every kept row is one of the original rows. */
  lemma {:induction false} KeepRowsSubset(cells: seq<seq<int>>, columns: nat)
    ensures forall k :: 0 <= k < |KeepRows(cells, columns)| ==> KeepRows(cells, columns)[k] in cells
  {
    if |cells| > 0 {
      var front := cells[..|cells| - 1];
      KeepRowsSubset(front, columns);
      assert forall x :: x in front ==> x in cells;
    }
  }

  /** Filtering distributes over concatenation, and a single row is kept
      exactly when it is not full: together these make `KeepRows` the
      order-preserving filter of the rows that are not full. */
  lemma {:induction false} KeepRowsAppend(a: seq<seq<int>>, b: seq<seq<int>>, columns: nat)
    ensures KeepRows(a + b, columns) == KeepRows(a, columns) + KeepRows(b, columns)
    decreases |b|
  {
    if |b| == 0 {
      assert a + b == a;
    } else {
      var c := a + b;
      var b' := b[..|b| - 1];
      assert c[..|c| - 1] == a + b';
      assert c[|c| - 1] == b[|b| - 1];
      KeepRowsAppend(a, b', columns);
    }
  }

  lemma KeepRowsSingle(row: seq<int>, columns: nat)
    ensures KeepRows([row], columns) == if Full(row) then [] else [row]
  {
    assert [row][..0] == [];
  }

  lemma {:induction false} CountFullAppend(a: seq<seq<int>>, b: seq<seq<int>>, columns: nat)
    ensures CountFull(a + b, columns) == CountFull(a, columns) + CountFull(b, columns)
    decreases |b|
  {
    if |b| == 0 {
      assert a + b == a;
    } else {
      var c := a + b;
      var b' := b[..|b| - 1];
      assert c[..|c| - 1] == a + b';
      assert c[|c| - 1] == b[|b| - 1];
      CountFullAppend(a, b', columns);
    }
  }

  /** Clearing moves a row that is not full down by the number of full rows
      below it, with its content intact; the rows freed at the top are empty. */
  lemma ClearFullRowsMovesDown(g: Grid, r: int)
    requires g.Wf() && 0 <= r < g.rows && !g.IsRowFull(r)
    ensures r + CountFull(g.cells[r + 1..], g.columns) < g.rows
    ensures g.ClearFullRows().0.cells[r + CountFull(g.cells[r + 1..], g.columns)] == g.cells[r]
  {
    var cells := g.cells;
    var pre := cells[..r];
    var post := cells[r + 1..];
    var x := cells[r];
    assert !Full(x);
    assert cells == (pre + [x]) + post;
    KeepRowsAppend(pre + [x], post, g.columns);
    KeepRowsAppend(pre, [x], g.columns);
    KeepRowsSingle(x, g.columns);
    CountFullAppend(pre + [x], post, g.columns);
    CountFullAppend(pre, [x], g.columns);
    assert CountFull([x], g.columns) == 0 by {
      assert [x][..0] == [];
    }
    KeepRowsCount(pre, g.columns);
    KeepRowsCount(cells, g.columns);
    var kept := KeepRows(cells, g.columns);
    var n := g.rows - |kept|;
    assert kept == KeepRows(pre, g.columns) + [x] + KeepRows(post, g.columns);
    assert kept[|KeepRows(pre, g.columns)|] == x;
  }

  /** The rows freed at the top by clearing are empty. */
  lemma ClearFullRowsTopEmpty(g: Grid)
    requires g.Wf()
    ensures g.ClearFullRows().1 <= g.rows
    ensures forall r :: 0 <= r < g.ClearFullRows().1 ==> g.ClearFullRows().0.IsRowEmpty(r)
  {
    KeepRowsCount(g.cells, g.columns);
  }

  predicate AllInside(g: Grid, ps: seq<Position>)
  {
    forall i :: 0 <= i < |ps| ==> g.IsInside(ps[i].row, ps[i].column)
  }

  /** Writes `value` into the cell of every position in `ps`, in order.
      The positions written hold `value` afterwards; every other cell keeps
      its content. */
  function Paint(g: Grid, ps: seq<Position>, value: int): (h: Grid)
    requires g.Wf() && AllInside(g, ps)
    ensures h.Wf() && h.rows == g.rows && h.columns == g.columns
    ensures forall i :: 0 <= i < |ps| ==> h.Get(ps[i].row, ps[i].column) == value
    ensures forall r, c :: g.IsInside(r, c) && Position(r, c) !in ps ==> h.Get(r, c) == g.Get(r, c)
    decreases |ps|
  {
    if |ps| == 0 then g
    else
      var last := ps[|ps| - 1];
      var front := ps[..|ps| - 1];
      assert forall i :: 0 <= i < |front| ==> front[i] == ps[i];
      var h0 := Paint(g, front, value);
      assert forall r, c :: Position(r, c) in front ==> Position(r, c) in ps;
      h0.Set(last.row, last.column, value)
  }
}

=== FILE: opt.dfy ===
/** The optional-value type used wherever the source allows a null reference
    (the held block, a settings object that may be null, a failed parse). */
module Opt {

  datatype Option<+T> = None | Some(value: T) {

    /** The value held, or `default` when there is none. */
    function GetOr(default: T): T
    {
      match this
      case Some(v) => v
      case None => default
    }
  }
}

=== FILE: position.dfy ===
/** A (row, column) pair addressing a cell of the grid or a tile of a block.
    In the source it is a class with mutable properties and value equality;
    here it is an immutable value and each property assignment yields a new one. */
module Positions {

  import opened Opt

  datatype Position = Position(row: int, column: int)

  /** What `Equals(object)` may be handed: a position, or anything else
      (another type, or null). */
  datatype Obj = PositionObj(pos: Position) | OtherObj

  /** The constructor stores exactly the row and column it is given. */
  function Make(row: int, column: int): (p: Position)
    ensures p.row == row && p.column == column
  {
    Position(row, column)
  }

  /** `p.Row = row`: only the row changes. */
  function WithRow(p: Position, row: int): (q: Position)
    ensures q.row == row
    ensures q.column == p.column
  {
    p.(row := row)
  }

  /** `p.Column = column`: only the column changes. */
  function WithColumn(p: Position, column: int): (q: Position)
    ensures q.column == column
    ensures q.row == p.row
  {
    p.(column := column)
  }

  /** Field-wise equality against an arbitrary object. */
  predicate Equals(p: Position, obj: Obj)
  {
    match obj
    case PositionObj(other) => p.row == other.row && p.column == other.column
    case OtherObj => false
  }

  /** `Equals` holds exactly when the other object is a position equal to `p`
      as a value, and never for an object of another type. */
  lemma EqualsIsValueEquality(p: Position, obj: Obj)
    ensures Equals(p, obj) <==> obj == PositionObj(p)
    ensures obj.OtherObj? ==> !Equals(p, obj)
  {
  }

  lemma EqualsReflexive(p: Position)
    ensures Equals(p, PositionObj(p))
  {
  }

  lemma EqualsSymmetric(p: Position, q: Position)
    ensures Equals(p, PositionObj(q)) <==> Equals(q, PositionObj(p))
  {
  }

  lemma EqualsTransitive(p: Position, q: Position, s: Position)
    requires Equals(p, PositionObj(q)) && Equals(q, PositionObj(s))
    ensures Equals(p, PositionObj(s))
  {
  }

  /** Assigning the row and then the column gives the same position as
      assigning them in the other order, and re-assigning a property
      overrides the earlier assignment. */
  lemma SettersCommute(p: Position, row: int, column: int, row': int)
    ensures WithColumn(WithRow(p, row), column) == WithRow(WithColumn(p, column), row)
    ensures WithRow(WithRow(p, row), row') == WithRow(p, row')
    ensures WithRow(p, p.row) == p && WithColumn(p, p.column) == p
  {
  }

  /** The translation of a position by a row and column delta. */
  function Translate(p: Position, dRow: int, dColumn: int): (q: Position)
    ensures q.row - p.row == dRow && q.column - p.column == dColumn
  {
    Position(p.row + dRow, p.column + dColumn)
  }

  // ---------------------------------------------------------------------
  // ToString: "(Row, Column)" with both numbers in decimal

  function DigitChar(d: nat): (c: char)
    requires d < 10
    ensures '0' <= c <= '9'
  {
    ('0' as int + d) as char
  }

  function DigitValue(c: char): (d: nat)
    requires '0' <= c <= '9'
    ensures d < 10
  {
    (c as int - '0' as int) as nat
  }

  predicate IsDigit(c: char)
  {
    '0' <= c <= '9'
  }

  predicate AllDigits(s: string)
  {
    forall i :: 0 <= i < |s| ==> IsDigit(s[i])
  }

  /** Decimal rendering of a natural number, without leading zeros. */
  function NatToString(n: nat): (s: string)
    ensures |s| > 0 && AllDigits(s)
    decreases n
  {
    if n < 10 then [DigitChar(n)] else NatToString(n / 10) + [DigitChar(n % 10)]
  }

  /** Decimal rendering of an integer as C# formats it in the invariant
      culture: a '-' before the magnitude of a negative number. */
  function IntToString(i: int): string
  {
    if i < 0 then "-" + NatToString(-i) else NatToString(i)
  }

  /** The rendering of an integer is a sign and digits: never empty and
      never a comma, so the comma in "(Row, Column)" separates the two. */
  lemma IntToStringNoComma(i: int)
    ensures |IntToString(i)| > 0 && ',' !in IntToString(i)
  {
    var t := NatToString(if i < 0 then -i else i);
    assert forall k :: 0 <= k < |t| ==> t[k] != ',';
  }

  /** The value of a string of decimal digits. */
  function ParseNat(s: string): nat
    requires AllDigits(s)
  {
    if |s| == 0 then 0 else 10 * ParseNat(s[..|s| - 1]) + DigitValue(s[|s| - 1])
  }

  function ParseInt(s: string): Option<int>
  {
    if |s| > 0 && s[0] == '-' then
      if AllDigits(s[1..]) then Some(0 - ParseNat(s[1..]) as int) else None
    else if AllDigits(s) then Some(ParseNat(s)) else None
  }

  lemma {:induction false} ParseNatToString(n: nat)
    ensures ParseNat(NatToString(n)) == n
    decreases n
  {
    if n >= 10 {
      var s := NatToString(n);
      assert s[..|s| - 1] == NatToString(n / 10);
      ParseNatToString(n / 10);
    }
  }

  /** The decimal rendering of an integer reads back as that integer. */
  lemma ParseIntToString(i: int)
    ensures ParseInt(IntToString(i)) == Some(i)
  {
    if i < 0 {
      ParseNegative(i);
    } else {
      ParseNonNegative(i);
    }
  }

  lemma ParseNegative(i: int)
    requires i < 0
    ensures ParseInt(IntToString(i)) == Some(i)
  {
    var t := NatToString(-i);
    ParseNatToString(-i);
    NegativeRoundTrip(i, t);
  }

  lemma NegativeRoundTrip(i: int, t: string)
    requires i < 0 && AllDigits(t) && ParseNat(t) == -i && IntToString(i) == "-" + t
    ensures ParseInt(IntToString(i)) == Some(i)
  {
    ParseSigned(t);
  }

  lemma ParseNonNegative(i: int)
    requires i >= 0
    ensures ParseInt(IntToString(i)) == Some(i)
  {
    ParseUnsigned(NatToString(i));
    ParseNatToString(i);
  }

  lemma ParseSigned(t: string)
    requires AllDigits(t)
    ensures ParseInt("-" + t) == Some(0 - ParseNat(t) as int)
  {
    var s := "-" + t;
    assert s[0] == '-' && s[1..] == t;
  }

  lemma ParseUnsigned(t: string)
    requires |t| > 0 && AllDigits(t)
    ensures ParseInt(t) == Some(ParseNat(t) as int)
  {
    assert IsDigit(t[0]);
  }

  function ToString(p: Position): (s: string)
    ensures |s| >= 6 && s[0] == '(' && s[|s| - 1] == ')'
  {
    "(" + IntToString(p.row) + ", " + IntToString(p.column) + ")"
  }

  /** Index of the first comma in `s`, or |s| if there is none. */
  function FirstComma(s: string): (i: nat)
    ensures i <= |s|
    ensures forall j :: 0 <= j < i ==> s[j] != ','
    ensures i < |s| ==> s[i] == ','
  {
    if |s| == 0 || s[0] == ',' then 0 else 1 + FirstComma(s[1..])
  }

  /** Reads back a string of the form "(Row, Column)". */
  function ParsePosition(s: string): Option<Position>
  {
    if |s| < 2 || s[0] != '(' || s[|s| - 1] != ')' then None
    else
      var inner := s[1..|s| - 1];
      var k := FirstComma(inner);
      if k + 2 > |inner| || inner[k..k + 2] != ", " then None
      else
        match (ParseInt(inner[..k]), ParseInt(inner[k + 2..]))
        case (Some(r), Some(c)) => Some(Position(r, c))
        case _ => None
  }

  /** `ToString` loses nothing: the text reads back as the same position. */
  lemma ParseToString(p: Position)
    ensures ParsePosition(ToString(p)) == Some(p)
  {
    var a := IntToString(p.row);
    var b := IntToString(p.column);
    IntToStringNoComma(p.row);
    IntToStringNoComma(p.column);
    var s := ToString(p);
    var inner := s[1..|s| - 1];
    assert inner == a + ", " + b;
    assert FirstComma(inner) == |a| by {
      assert forall j :: 0 <= j < |a| ==> inner[j] == a[j];
      assert inner[|a|] == ',';
    }
    assert inner[..|a|] == a;
    assert inner[|a|..|a| + 2] == ", ";
    assert inner[|a| + 2..] == b;
    ParseIntToString(p.row);
    ParseIntToString(p.column);
  }

  /** Distinct positions print differently. */
  lemma ToStringInjective(p: Position, q: Position)
    ensures ToString(p) == ToString(q) <==> p == q
  {
    if ToString(p) == ToString(q) {
      ParseToString(p);
      ParseToString(q);
    }
  }
}

=== FILE: queue.dfy ===
/** The one-block lookahead queue. The source of the queue class is not part
    of this model; its random generator is replaced by the sequence of blocks
    it would produce (`rolls`), so the draw is a parameter. */
module Queue {

  import opened Opt
  import opened Blocks

  datatype BlockQueue = BlockQueue(next: Block)

  predicate Wf(q: BlockQueue)
  {
    q.next.Wf()
  }

  /** How many draws the redraw loop of `GetAndUpdate` rejects: the index of
      the first draw whose id differs from `previous`, or |rolls| if none does. */
  function Rejected(previous: int, rolls: seq<Block>): (i: nat)
    ensures i <= |rolls|
    ensures forall j :: 0 <= j < i ==> rolls[j].id == previous
    ensures i < |rolls| ==> rolls[i].id != previous
  {
    if |rolls| == 0 || rolls[0].id != previous then 0
    else 1 + Rejected(previous, rolls[1..])
  }

  /** The redraw loop of `GetAndUpdate`: keep drawing until the drawn id
      differs from the id just handed out. `None` when the supplied draws run
      out first (the source would keep drawing). */
  function Redraw(previous: int, rolls: seq<Block>): (r: Option<Block>)
    ensures r.Some? ==> r.value.id != previous && r.value in rolls
    ensures r.Some? ==> exists i :: (0 <= i < |rolls| && r.value == rolls[i] &&
      forall j :: 0 <= j < i ==> rolls[j].id == previous)
    ensures r.None? <==> forall i :: 0 <= i < |rolls| ==> rolls[i].id == previous
  {
    var i := Rejected(previous, rolls);
    if i < |rolls| then Some(rolls[i]) else None
  }

  /** A block the generator may hand back as the new lookahead of `q`. */
  predicate Follows(q: BlockQueue, drawn: Block)
  {
    drawn.id != q.next.id
  }

  /** Hands out the lookahead block and installs the redrawn one. Both are
      well-formed blocks, so both ids lie in 1..7. */
  function GetAndUpdate(q: BlockQueue, drawn: Block): (res: (Block, BlockQueue))
    requires Wf(q) && drawn.Wf() && Follows(q, drawn)
    ensures res.0 == q.next
    ensures res.1.next == drawn
    ensures res.0.id != res.1.next.id
    ensures res.0.Wf() && Wf(res.1)
    ensures 1 <= res.0.id <= 7 && 1 <= res.1.next.id <= 7
  {
    (q.next, BlockQueue(drawn))
  }

  /** Every block the generator can produce is well-formed. */
  predicate AllWf(rolls: seq<seq<Block>>)
  {
    forall k, j :: 0 <= k < |rolls| && 0 <= j < |rolls[k]| ==> rolls[k][j].Wf()
  }

  /** The supplies after the first, and any block of the first, are well-formed. */
  lemma AllWfTail(rolls: seq<seq<Block>>, b: Block)
    requires AllWf(rolls) && |rolls| > 0
    ensures AllWf(rolls[1..])
    ensures b in rolls[0] ==> b.Wf()
  {
    forall k, j | 0 <= k < |rolls[1..]| && 0 <= j < |rolls[1..][k]|
      ensures rolls[1..][k][j].Wf()
    {
      assert rolls[1..][k] == rolls[k + 1];
    }
  }

  /** Successive `GetAndUpdate` calls, each redrawing from its own supply of
      draws. Stops early when a supply runs out. Every block taken is
      well-formed, so its id lies in 1..7. */
  function TakeMany(q: BlockQueue, rolls: seq<seq<Block>>): (taken: seq<Block>)
    requires Wf(q) && AllWf(rolls)
    ensures |taken| <= |rolls| + 1
    ensures |taken| > 0 ==> taken[0] == q.next
    ensures forall i :: 0 <= i < |taken| ==> taken[i].Wf() && 1 <= taken[i].id <= 7
    decreases |rolls|
  {
    if |rolls| == 0 then [q.next]
    else match Redraw(q.next.id, rolls[0])
      case None => [q.next]
      case Some(drawn) =>
        AllWfTail(rolls, drawn);
        var (block, q') := GetAndUpdate(q, drawn);
        [block] + TakeMany(q', rolls[1..])
  }

  /** However many blocks are taken, no two in a row have the same id; and
      every taken block is the initial lookahead or one of the draws. */
  lemma {:induction false} TakeManyNoRepeat(q: BlockQueue, rolls: seq<seq<Block>>)
    requires Wf(q) && AllWf(rolls)
    ensures forall i :: 0 <= i < |TakeMany(q, rolls)| - 1 ==>
      TakeMany(q, rolls)[i].id != TakeMany(q, rolls)[i + 1].id
    ensures forall i :: 0 <= i < |TakeMany(q, rolls)| ==>
      TakeMany(q, rolls)[i] == q.next || exists k :: 0 <= k < |rolls| && TakeMany(q, rolls)[i] in rolls[k]
    decreases |rolls|
  {
    if |rolls| > 0 {
      match Redraw(q.next.id, rolls[0])
      case None =>
      case Some(drawn) =>
        AllWfTail(rolls, drawn);
        var q' := BlockQueue(drawn);
        TakeManyNoRepeat(q', rolls[1..]);
        var rest := TakeMany(q', rolls[1..]);
        var all := TakeMany(q, rolls);
        assert all == [q.next] + rest;
        forall i | 0 <= i < |all|
          ensures all[i] == q.next || exists k :: 0 <= k < |rolls| && all[i] in rolls[k]
        {
          if i == 1 {
            assert all[1] == drawn && drawn in rolls[0];
          } else if i > 1 {
            assert all[i] == rest[i - 1];
            if rest[i - 1] != q'.next {
              var k :| 0 <= k < |rolls[1..]| && rest[i - 1] in rolls[1..][k];
              assert rolls[1..][k] == rolls[k + 1];
            } else {
              assert drawn in rolls[0];
            }
          }
        }
    }
  }
}

=== FILE: settings.dfy ===
/** The game's configuration record: a points multiplier kept in [1, 10]
    and four feature toggles. Persistence (JSON text in a file) is outside
    the model; only the validation applied to a loaded record is kept. */
module GameSettings {

  import opened Opt

  const DefaultPointsMultiplier: int := 1
  const DefaultHoldingBlockEnabled: bool := true
  const DefaultDropBlockEnabled: bool := true
  const DefaultGhostBlockVisible: bool := true
  const DefaultInvertControls: bool := false

  const MinPointsMultiplier: int := 1
  const MaxPointsMultiplier: int := 10

  datatype Settings = Settings(
    pointsMultiplier: int,
    holdingBlockEnabled: bool,
    dropBlockEnabled: bool,
    ghostBlockVisible: bool,
    invertControls: bool)

  /** Every settings object the program can build keeps its multiplier in range. */
  predicate Valid(s: Settings)
  {
    MinPointsMultiplier <= s.pointsMultiplier <= MaxPointsMultiplier
  }

  /** An out-of-range multiplier is silently replaced by the default;
      an in-range one is kept. */
  function ValidatePointsMultiplier(value: int): (r: int)
    ensures 1 <= value <= 10 ==> r == value
    ensures !(1 <= value <= 10) ==> r == 1
    ensures 1 <= r <= 10
  {
    if value < MinPointsMultiplier || value > MaxPointsMultiplier then DefaultPointsMultiplier else value
  }

  /** Validating an already validated value changes nothing. */
  lemma ValidateIdempotent(value: int)
    ensures ValidatePointsMultiplier(ValidatePointsMultiplier(value)) == ValidatePointsMultiplier(value)
  {
  }

  /** The values `ResetToDefaults` writes, whatever `s` held before. */
  function ResetToDefaults(s: Settings): (r: Settings)
    ensures Valid(r)
    ensures r.pointsMultiplier == 1
    ensures r.holdingBlockEnabled && r.dropBlockEnabled && r.ghostBlockVisible && !r.invertControls
  {
    Settings(DefaultPointsMultiplier, DefaultHoldingBlockEnabled, DefaultDropBlockEnabled,
             DefaultGhostBlockVisible, DefaultInvertControls)
  }

  /** The parameterless constructor: field initialisers, then `ResetToDefaults`. */
  function New(): (r: Settings)
    ensures Valid(r)
    ensures r.pointsMultiplier == 1
    ensures r.holdingBlockEnabled && r.dropBlockEnabled && r.ghostBlockVisible && !r.invertControls
  {
    var initial := Settings(DefaultPointsMultiplier, DefaultHoldingBlockEnabled, DefaultDropBlockEnabled,
                            DefaultGhostBlockVisible, DefaultInvertControls);
    ResetToDefaults(initial)
  }

  /** `ResetToDefaults` forgets every prior field value and is idempotent. */
  lemma ResetToDefaultsIndependent(s: Settings, t: Settings)
    ensures ResetToDefaults(s) == ResetToDefaults(t)
    ensures ResetToDefaults(ResetToDefaults(s)) == ResetToDefaults(s)
    ensures ResetToDefaults(s) == New()
  {
  }

  /** The `PointsMultiplier` setter: stores the validated value, nothing else changes. */
  function SetPointsMultiplier(s: Settings, value: int): (r: Settings)
    ensures Valid(r)
    ensures 1 <= value <= 10 ==> r.pointsMultiplier == value
    ensures !(1 <= value <= 10) ==> r.pointsMultiplier == 1
    ensures r.holdingBlockEnabled == s.holdingBlockEnabled && r.dropBlockEnabled == s.dropBlockEnabled
    ensures r.ghostBlockVisible == s.ghostBlockVisible && r.invertControls == s.invertControls
  {
    s.(pointsMultiplier := ValidatePointsMultiplier(value))
  }

  /** The four boolean setters: each changes its own flag and nothing else. */
  function SetHoldingBlockEnabled(s: Settings, b: bool): (r: Settings)
    ensures r.holdingBlockEnabled == b
    ensures r.pointsMultiplier == s.pointsMultiplier && r.dropBlockEnabled == s.dropBlockEnabled
    ensures r.ghostBlockVisible == s.ghostBlockVisible && r.invertControls == s.invertControls
    ensures Valid(s) ==> Valid(r)
  {
    s.(holdingBlockEnabled := b)
  }

  function SetDropBlockEnabled(s: Settings, b: bool): (r: Settings)
    ensures r.dropBlockEnabled == b
    ensures r.pointsMultiplier == s.pointsMultiplier && r.holdingBlockEnabled == s.holdingBlockEnabled
    ensures r.ghostBlockVisible == s.ghostBlockVisible && r.invertControls == s.invertControls
    ensures Valid(s) ==> Valid(r)
  {
    s.(dropBlockEnabled := b)
  }

  function SetGhostBlockVisible(s: Settings, b: bool): (r: Settings)
    ensures r.ghostBlockVisible == b
    ensures r.pointsMultiplier == s.pointsMultiplier && r.holdingBlockEnabled == s.holdingBlockEnabled
    ensures r.dropBlockEnabled == s.dropBlockEnabled && r.invertControls == s.invertControls
    ensures Valid(s) ==> Valid(r)
  {
    s.(ghostBlockVisible := b)
  }

  function SetInvertControls(s: Settings, b: bool): (r: Settings)
    ensures r.invertControls == b
    ensures r.pointsMultiplier == s.pointsMultiplier && r.holdingBlockEnabled == s.holdingBlockEnabled
    ensures r.dropBlockEnabled == s.dropBlockEnabled && r.ghostBlockVisible == s.ghostBlockVisible
    ensures Valid(s) ==> Valid(r)
  {
    s.(invertControls := b)
  }

  /** The field values found in a settings document, before any validation:
      the multiplier is whatever integer the document holds. */
  datatype Document = Document(
    pointsMultiplier: int,
    holdingBlockEnabled: bool,
    dropBlockEnabled: bool,
    ghostBlockVisible: bool,
    invertControls: bool)

  /** `LoadFromFile`, given what reading and deserialising the file produced:
      `None` for a missing file, unreadable text or a null document.
      The deserialiser builds a fresh object and assigns each property through
      its setter; the loader then validates the multiplier once more. */
  function LoadFromFile(parsed: Option<Document>): (r: Settings)
    ensures Valid(r)
    ensures parsed.None? ==> r == New()
    ensures parsed.Some? ==> r.pointsMultiplier == ValidatePointsMultiplier(parsed.value.pointsMultiplier)
    ensures parsed.Some? ==> r.holdingBlockEnabled == parsed.value.holdingBlockEnabled
    ensures parsed.Some? ==> r.dropBlockEnabled == parsed.value.dropBlockEnabled
    ensures parsed.Some? ==> r.ghostBlockVisible == parsed.value.ghostBlockVisible
    ensures parsed.Some? ==> r.invertControls == parsed.value.invertControls
  {
    match parsed
    case None => New()
    case Some(doc) =>
      var s0 := New();
      var s1 := SetPointsMultiplier(s0, doc.pointsMultiplier);
      var s2 := SetHoldingBlockEnabled(s1, doc.holdingBlockEnabled);
      var s3 := SetDropBlockEnabled(s2, doc.dropBlockEnabled);
      var s4 := SetGhostBlockVisible(s3, doc.ghostBlockVisible);
      var s5 := SetInvertControls(s4, doc.invertControls);
      SetPointsMultiplier(s5, ValidatePointsMultiplier(s5.pointsMultiplier))
  }

  /** Saving a valid settings object and loading it back restores it. */
  lemma LoadOfSaved(s: Settings)
    requires Valid(s)
    ensures LoadFromFile(Some(Document(s.pointsMultiplier, s.holdingBlockEnabled, s.dropBlockEnabled,
                                        s.ghostBlockVisible, s.invertControls))) == s
  {
  }
}
